=== FILE: README.md ===
# Vehicle damage detection API: the detection-to-report pipeline in Dafny

This project models the core of the YOLO vehicle damage detection API in `main.py`. An
uploaded photograph goes through an opaque object detector. The raw detections, each a
`(class, confidence, bbox)` triple, become a damage report:

- **Classification** (`create_damage_analysis`). Each detection gets:
  - an ordinal id `DMG_NNN`;
  - a severity tier (`Leve`, `Moderado`, `Severo`, or `Indefinido` for an unknown label);
  - a body location (or `N/A`);
  - a display name from the static `DAMAGE_CONFIG` table. An unknown label falls back to the label with underscores turned into spaces, then title-cased.
- **Aggregation** (the loop inside `detect_damage`). This is a fold over the records. It produces a zero-filled `severity_count` over the three tracked tiers and the sorted distinct `damage_types`. It also sets a `repair_urgency` chosen by the worst severity seen: Alta, then Média, then Baixa.
- **Request boundary.**
  - The `image/` content-type gate, which answers 400.
  - Defaulting of the optional vehicle fields to `"Não informado"`, using Python truthiness.
  - `download_model`, which skips the fetch when the file exists.
  - `load_model`, which loads only while the global model is `None`.
  - The wrapping of every other failure into a 500.

Everything is an immutable datatype with pure functions. The server's global state is a
value: `Server(model: Option<M>, disk: Artifact, downloads: nat)`. The handler returns the new state
with the response. The collaborators the code calls but that cannot be seen are parameters
of type `Environment`: the network, `YOLO(path)`, PIL decoding, the detector with `plot()`,
JPEG/base64 encoding and the clock.

Modules (one file each): `Wrappers`, `Text` (Python `startswith`, `replace`, `title`),
`Decimal` (`str(int)` and `{:03d}`), `StringOrder` (Python string order and `sorted`),
`DamageConfig`, `Classifier`, `DamageSummary`, `Vehicle`, `Faults`, `ModelLoader`,
`DetectEndpoint` and `Scenarios` (two worked inspections).

Notes on how the code behaves:

- Loading is synchronous, and there are no `Loading` or `Failed` model states.
  `startup_event` calls `load_model` with no handler around it, so a failed load aborts
  startup and no server exists to take requests (`DetectEndpoint.Startup`).
- After a successful load, `model` is never reset. The load that `process_image` calls on
  each request therefore does no work on a server that started
  (`DetectEndpoint.StartedServerNeverReloads`). It loads the model only on a server whose
  model is still unset, that is, one where the startup hook did not run.
- `download_model` opens the destination file before streaming, so a failure mid-stream
  leaves a partial file. Because the file then exists, every later call skips the download
  and hands the partial file to the loader (`ModelLoader.PartialDownloadIsReused`).
- A failure while rendering the annotated image fails the whole request with 500. This
  covers both `results[0].plot()` and the JPEG save in `image_to_base64`. It is not an
  optional field that is simply omitted.
- The content-type test runs before the `try`. A file part with no Content-Type header has
  `content_type` set to `None`. Calling `startswith` on it raises `AttributeError`, which
  nothing catches, so the answer is 500, not 400.
- `include_annotated_image and annotated_img`: a PIL image is always truthy, so the field
  is present exactly when the flag is set.

## Model

| member | source | states |
|---|---|---|
| `DamageConfig.TableIsConsistent` | main.py:38-63 | the severity, location and display tables have the same six keys, and no listed label has severity `Indefinido` |
| `Text.StartsWithMeansPrefix` | main.py:234 | `startswith('image/')` holds exactly when the content type is `image/` followed by something |
| `Classifier.CreateDamageAnalysis` | main.py:145-162 | one record per detection, in the same order; record `i` is the classification of detection `i`; every id reads back as its position, and no two records share an id |
| `Classifier.Classify` | main.py:149-161 | class, confidence and bbox copied unchanged; a known label gets exactly the table's severity, location and display name; an unknown one gets `Indefinido`, `N/A` and the fallback name; severity is `Indefinido` iff the label is unknown |
| `Classifier.DamageId` | main.py:154 | the id starts with `DMG_`, is exactly 7 characters for positions below 999 and parses back to its 0-based position |
| `Classifier.DamageIdInjective` | main.py:148-154 | distinct positions get distinct ids for any number of detections, not just below 1000 |
| `Classifier.FallbackDisplay` | main.py:156 | same length as the label, contains no underscore, and is the word-boundary title-casing of the label with `_` replaced by space |
| `Classifier.CreateDamageAnalysisAppend` | main.py:148 | numbering is positional: the records of `a + b` are those of `a` followed by those of `b` numbered from `\|a\|` |
| `Text.TitleMeetsReference` | main.py:156 | the `str.title()` scan upper-cases exactly the characters that start a word (first, or after an uncased character) and lower-cases the rest |
| `Text.TitleIdempotent` | main.py:156 | title-casing an already title-cased display name leaves it unchanged |
| `Decimal.ZeroPadRoundTrip` | main.py:154 | zero padding to width 3 reads back as the padded number, so padding loses nothing |
| `Decimal.IntToStringRoundTrip` | main.py:270 | `str(year)` reads back as the year, negative years included |
| `DamageSummary.Summarize` | main.py:249-264 | `total_damages` is the record count; `severity_count` has exactly the keys Leve, Moderado and Severo, each equal to the number of such records; the three counts sum to the total minus the `Indefinido` records; `damage_types` is strictly sorted with exactly the records' display names; urgency is Alta iff some record is Severo, Média iff none is Severo and some is Moderado, Baixa otherwise (including no records) |
| `DamageSummary.UrgencyOf` | main.py:260-264 | Alta iff the Severo count is positive; Média iff it is zero and the Moderado count is positive; Baixa iff both are zero |
| `DamageSummary.Render` | main.py:284-289 | `severity_count` has exactly the keys "Leve", "Moderado" and "Severo", each holding its tier's count; every tier and the urgency read back from the strings written; total and types are copied |
| `DamageConfig.ParseSeverity` | main.py:38-45 | reads a tier name back; it succeeds exactly on the four tier names and returns the tier so named |
| `DamageSummary.ParseUrgency` | main.py:260-264 | reads an urgency back; it succeeds exactly on "Baixa", "Média" and "Alta" and returns the urgency so named |
| `DamageSummary.FoldCounts` | main.py:249-255 | the counting loop keeps the key set and adds to each key exactly the number of records of that severity |
| `DamageSummary.FoldTypes` | main.py:250-257 | the `not in` / `append` loop keeps the list duplicate-free and ends with the starting names plus every record's display name |
| `DamageSummary.CountsPartition` | main.py:252-255 | every record falls under exactly one of the four tiers |
| `DamageSummary.DamageTypesCanonical` | main.py:287 | `damage_types` equals every strictly sorted list of the records' display names, so the output does not depend on first-seen order |
| `DamageSummary.UrgencyMonotone` | main.py:260-264 | adding records never lowers the urgency in the order Baixa < Média < Alta |
| `StringOrder.Sort` | main.py:287 | `sorted` returns a sorted permutation of its input under Python's code-point string order |
| `StringOrder.SortDistinct` | main.py:287 | sorting a duplicate-free list gives a strictly increasing list with the same elements |
| `StringOrder.StrictlySortedUnique` | main.py:287 | two strictly sorted lists with the same elements are equal |
| `Vehicle.TextOrNotInformed` | main.py:268-271 | the result is never empty; it is the sentinel iff the value is missing, empty or itself the sentinel; any other value is passed through |
| `Vehicle.MakeVehicleInfo` | main.py:267-272 | plate, model and color are each defaulted by `TextOrNotInformed`; year by `YearOrNotInformed` |
| `Vehicle.YearOrNotInformed` | main.py:270 | the sentinel iff the year is missing or 0; otherwise `str(year)`, which parses back to the year |
| `ModelLoader.DownloadModel` | main.py:68-99 | a file already on disk means no fetch and the path is returned; an absent file is always fetched; success iff the file existed or the fetch succeeded; failures are 500; the file ends complete iff it was complete or a fetch from an absent file succeeded; from an absent file, a fetch failing before `open` leaves no file and one failing mid-stream leaves a partial file |
| `ModelLoader.LoadModel` | main.py:101-114 | an already set model is returned unchanged with no fetch and no load; the call succeeds iff the model slot ends up set, and then holds the returned model; the loader only ever opens a file that exists; failures are 500; with the model unset, the file and the fetch flag are exactly those `download_model` leaves |
| `ModelLoader.DownloadAtMostOnce` | main.py:72 | once a download has written anything, a second call does not fetch |
| `ModelLoader.PartialDownloadIsReused` | main.py:72-91 | a download that fails mid-stream leaves a partial file, and the next load opens that file instead of fetching |
| `ModelLoader.LoadFailureKeepsCause` | main.py:95-112 | a failed load's innermost cause is the network error or the loader's own error |
| `DetectEndpoint.ProcessImage` | main.py:116-143 | with a model already loaded the state is untouched; one download is counted exactly when the model is unset and the file absent; it succeeds iff `load_model` succeeds and the detector runs on the image; on success the model is set and the result is the detector's output for the image; failures are 500; the model slot and the file end as `load_model` leaves them, so a loaded model is kept even when the detector then fails |
| `DetectEndpoint.ImageToBase64` | main.py:164-169 | succeeds iff the JPEG save succeeds; the result is a `data:image/jpeg;base64,` URI followed by exactly the encoder's payload |
| `DetectEndpoint.DetectDamage` | main.py:209-301 | a missing content type gives 500 and a non-`image/` one gives 400, both with the state unchanged; every failure after the gate is 500; the request succeeds iff the content type starts with `image/`, the image decodes, `process_image` succeeds and, when requested, the annotated image encodes; an undecodable image leaves the state unchanged; a loaded model is never replaced; at most one download per request, and only while the file is absent and the model unset; a success carries the classification of the detector's output, its summary, the defaulted vehicle info and `inspection_info` with the clock's timestamp, the fixed inspector, version and model strings and the original filename; the annotated image is absent when not requested and, when requested, is exactly the encoding of the detector's annotated image, whose failure fails the request; once the image decodes, the server state is exactly the one `process_image` leaves, whether or not the request then succeeds |
| `DetectEndpoint.Startup` | main.py:171-176 | the server starts iff the first load succeeds; a started server has its model set and the file on disk, and has downloaded once iff the file was absent |
| `DetectEndpoint.StartedServerNeverReloads` | main.py:171-176 | a server that started serves any sequence of requests without loading or downloading again |
| `DetectEndpoint.SuccessfulLoadIsKept` | main.py:104-121 | a request whose `load_model` succeeds leaves the loaded model set, even when the detector or the JPEG save fails afterwards, so the next request does not load again |
| `DetectEndpoint.LoadedModelIsKept` | main.py:105-114 | once the model is set, any sequence of requests leaves the whole server state unchanged |
| `DetectEndpoint.NoDownloadOnceOnDisk` | main.py:72 | once a file is on disk, no sequence of requests downloads again |
| `Scenarios.EmptyInspection` | main.py:249-264 | no detections give total 0, all-zero counts, no types and urgency Baixa |
| `Scenarios.ScratchFlatTireScratch` | main.py:145-162 | scratch, flat_tire, scratch give ids DMG_001 to DMG_003, counts Leve 2, Moderado 0, Severo 1, types `["Pneu Vazio", "Risco"]` and urgency Alta |

## Left out

- Network download and file writing in `download_model` (main.py:77-91). The outcome of the fetch is a parameter with three cases: success, failure before the file is opened, and failure while streaming. Progress logging is not modelled.
- YOLO itself: deserialising the model, inference, reading `results[0].boxes` through `model.names`, and `plot()` (main.py:108, 119-137). These are the `openModel` and `runModel` parameters.
- Image decoding (`Image.open(...).convert("RGB")`) and JPEG/base64 encoding (main.py:167-168, 240). These are the `decodeImage` and `encodeJpegBase64` parameters.
- FastAPI setup, CORS, the routes `/`, `/health` and `/model/info`, logging and `datetime.now()` (main.py:20-35, 178-207, 303-321). The timestamp is a parameter.
- Confidence and bbox are carried through as `real` values; floating-point behaviour is not modelled.
- `Classifier.FallbackDisplay` models `str.title()` for ASCII letters only. Python also changes the case of non-ASCII letters and can expand a character (for example `ß`). The model leaves those characters unchanged and treats them as uncased.
- `Text.TitleMeetsReference` has the same ASCII-only restriction as `FallbackDisplay`.
- `DetectEndpoint.DetectDamage` keeps each error's status code and its chain of wrapped causes with their message prefixes. It does not render `str(HTTPException)` into the final detail text.
- The default `include_annotated_image = True` (main.py:212): `DetectRequest` always carries the flag, supplied by the caller; FastAPI's parameter defaulting is not modelled.
- The client scripts `client_example.py` and `test_api.py` talk to a live server and make no assertions, so nothing is taken from them.

=== FILE: classifier.dfy ===
/** `create_damage_analysis` (main.py:145-162): one damage record per detection, in order,
    classified through the static table. */
module Classifier {
  import opened Wrappers
  import opened DamageConfig
  import Text
  import Decimal

  /** A detection box `[x1, y1, x2, y2]`, carried through unchanged. */
  datatype BBox = BBox(x1: real, y1: real, x2: real, y2: real)

  /** One entry of the detector's output: `{'class', 'confidence', 'bbox'}`. */
  datatype Detection = Detection(className: string, confidence: real, bbox: BBox)

  /** One entry of the report's `damages` list. */
  datatype DamageRecord = DamageRecord(
    damageId: string,
    className: string,
    display: string,
    confidence: real,
    severity: Severity,
    location: string,
    bbox: BBox)

  const IdPrefix: string := "DMG_"
  const NoLocation: string := "N/A"

  /** `f"DMG_{i+1:03d}"` for the 0-based position `i`. */
  function DamageId(i: nat): (r: string)
    ensures Text.StartsWith(r, IdPrefix)
    ensures i < 999 ==> |r| == |IdPrefix| + 3
    ensures ParseDamageId(r) == Some(i)
  {
    var digits := Decimal.ZeroPad(i + 1, 3);
    Decimal.ZeroPadRoundTrip(i + 1, 3);
    Decimal.ThreeDigitsAtMost(if i < 999 then i + 1 else 0);
    PrefixThenRest(IdPrefix, digits);
    IdPrefix + digits
  }

  lemma PrefixThenRest(prefix: string, rest: string)
    ensures Text.StartsWith(prefix + rest, prefix)
    ensures (prefix + rest)[|prefix|..] == rest
  {
    assert (prefix + rest)[..|prefix|] == prefix;
  }

  /** Reads back the 0-based position from an id of the form `DMG_<digits>`. */
  function ParseDamageId(s: string): Option<nat> {
    if Text.StartsWith(s, IdPrefix) then
      match Decimal.ParseNat(s[|IdPrefix|..])
      case Some(n) => if n >= 1 then Some(n - 1) else None
      case None => None
    else None
  }

  /** Distinct positions get distinct ids, whatever the number of detections. */
  lemma DamageIdInjective(i: nat, j: nat)
    requires i != j
    ensures DamageId(i) != DamageId(j)
  {
  }

  /** `class_name.replace('_', ' ').title()` */
  function FallbackDisplay(className: string): (r: string)
    ensures |r| == |className|
    ensures forall k :: 0 <= k < |r| ==> r[k] != '_'
    ensures Text.TitleCasedOf(Text.ReplaceChar(className, '_', ' '), r)
  {
    var spaced := Text.ReplaceChar(className, '_', ' ');
    Text.TitleMeetsReference(spaced);
    var r := Text.Title(spaced);
    assert forall k :: 0 <= k < |r| ==> r[k] != '_' by {
      forall k | 0 <= k < |r| ensures r[k] != '_' {
        assert spaced[k] != '_';
        assert r[k] == (if k > 0 && Text.IsCased(spaced[k - 1])
                        then Text.ToLower(spaced[k]) else Text.ToUpper(spaced[k]));
      }
    }
    r
  }

  /** The record for the detection at 0-based position `i` (loop body of main.py:148-161). */
  function Classify(i: nat, d: Detection): (r: DamageRecord)
    ensures r.damageId == DamageId(i)
    ensures r.className == d.className && r.confidence == d.confidence && r.bbox == d.bbox
    ensures d.className in KnownLabels ==>
      r.severity == SeverityMap[d.className] && r.location == LocationMap[d.className]
      && r.display == ClassNames[d.className]
    ensures d.className !in KnownLabels ==>
      r.severity == Indefinido && r.location == NoLocation && r.display == FallbackDisplay(d.className)
    ensures r.severity == Indefinido <==> d.className !in KnownLabels
  {
    TableIsConsistent();
    DamageRecord(
      DamageId(i),
      d.className,
      Get(ClassNames, d.className, FallbackDisplay(d.className)),
      d.confidence,
      Get(SeverityMap, d.className, Indefinido),
      Get(LocationMap, d.className, NoLocation),
      d.bbox)
  }

  /** `create_damage_analysis(detections)`: exactly one record per detection, same order,
      ids numbered from `DMG_001` and never repeated. */
  function CreateDamageAnalysis(detections: seq<Detection>): (r: seq<DamageRecord>)
    ensures |r| == |detections|
    ensures forall i :: 0 <= i < |r| ==> r[i] == Classify(i, detections[i])
    ensures forall i :: 0 <= i < |r| ==> ParseDamageId(r[i].damageId) == Some(i)
    ensures forall i, j :: 0 <= i < j < |r| ==> r[i].damageId != r[j].damageId
  {
    var r := seq(|detections|, i requires 0 <= i < |detections| => Classify(i, detections[i]));
    assert forall i, j :: 0 <= i < j < |r| ==> r[i].damageId != r[j].damageId by {
      forall i, j | 0 <= i < j < |r| ensures r[i].damageId != r[j].damageId {
        DamageIdInjective(i, j);
      }
    }
    r
  }

  /** Classification is positional: the records for `a + b` are those for `a` followed by
      those for `b` with their ids shifted by `|a|`. */
  lemma CreateDamageAnalysisAppend(a: seq<Detection>, b: seq<Detection>)
    ensures CreateDamageAnalysis(a + b)[..|a|] == CreateDamageAnalysis(a)
    ensures forall k :: 0 <= k < |b| ==>
      CreateDamageAnalysis(a + b)[|a| + k] == Classify(|a| + k, b[k])
  {
  }
}

=== FILE: damage_config.dfy ===
/** The static classification table `DAMAGE_CONFIG` (main.py:38-63): three lookups keyed by
    the detector's raw label, and the severity tiers they use. */
module DamageConfig {
  import opened Wrappers

  /** The severity tiers; `Indefinido` is only ever the fallback for an unknown label. */
  datatype Severity = Leve | Moderado | Severo | Indefinido

  function SeverityName(s: Severity): string {
    match s
    case Leve => "Leve"
    case Moderado => "Moderado"
    case Severo => "Severo"
    case Indefinido => "Indefinido"
  }

  /** Reads a tier back from the string the response carries. */
  function ParseSeverity(name: string): (r: Option<Severity>)
    ensures r.Some? <==> name in {"Leve", "Moderado", "Severo", "Indefinido"}
    ensures r.Some? ==> SeverityName(r.value) == name
  {
    if name == "Leve" then Some(Leve)
    else if name == "Moderado" then Some(Moderado)
    else if name == "Severo" then Some(Severo)
    else if name == "Indefinido" then Some(Indefinido)
    else None
  }

  /** `DAMAGE_CONFIG['severity_map']` */
  const SeverityMap: map<string, Severity> := map[
    "shattered_glass" := Severo,
    "broken_lamp" := Severo,
    "flat_tire" := Severo,
    "dent" := Moderado,
    "scratch" := Leve,
    "crack" := Leve
  ]

  /** `DAMAGE_CONFIG['location_map']` */
  const LocationMap: map<string, string> := map[
    "shattered_glass" := "Para-brisa/Vidros",
    "flat_tire" := "Rodas",
    "broken_lamp" := "Faróis/Lanternas",
    "dent" := "Carroceria",
    "scratch" := "Pintura",
    "crack" := "Para-choque/Plásticos"
  ]

  /** `DAMAGE_CONFIG['class_names']` */
  const ClassNames: map<string, string> := map[
    "shattered_glass" := "Vidro Quebrado",
    "broken_lamp" := "Lâmpada Quebrada",
    "flat_tire" := "Pneu Vazio",
    "dent" := "Amassado",
    "scratch" := "Risco",
    "crack" := "Rachadura"
  ]

  /** The labels the table knows. */
  const KnownLabels: set<string> :=
    {"shattered_glass", "broken_lamp", "flat_tire", "dent", "scratch", "crack"}

  /** `dict.get(key, default)` */
  function Get<V>(m: map<string, V>, key: string, default: V): V {
    if key in m then m[key] else default
  }

  /** The three lookups cover the same six labels, and no label is mapped to the fallback
      tier, so a record's severity is `Indefinido` exactly when its label is unknown. */
  lemma TableIsConsistent()
    ensures SeverityMap.Keys == KnownLabels
    ensures LocationMap.Keys == KnownLabels
    ensures ClassNames.Keys == KnownLabels
    ensures forall name :: name in SeverityMap ==> SeverityMap[name] != Indefinido
  {
  }
}

=== FILE: damage_summary.dfy ===
/** The summary `detect_damage` computes over the damage records (main.py:249-264, 285-288):
    per-severity counts, the distinct damage types in sorted order and the repair urgency. */
module DamageSummary {
  import opened Wrappers
  import opened DamageConfig
  import opened Classifier
  import opened StringOrder

  datatype Urgency = Baixa | Media | Alta

  function UrgencyName(u: Urgency): string {
    match u
    case Baixa => "Baixa"
    case Media => "Média"
    case Alta => "Alta"
  }

  /** Reads an urgency back from the string the response carries. */
  function ParseUrgency(name: string): (r: Option<Urgency>)
    ensures r.Some? <==> name in {"Baixa", "Média", "Alta"}
    ensures r.Some? ==> UrgencyName(r.value) == name
  {
    if name == "Baixa" then Some(Baixa)
    else if name == "Média" then Some(Media)
    else if name == "Alta" then Some(Alta)
    else None
  }

  /** Position of an urgency in the order Baixa < Média < Alta. */
  function Rank(u: Urgency): nat {
    match u
    case Baixa => 0
    case Media => 1
    case Alta => 2
  }

  /** The tiers `severity_count` has a key for; `Indefinido` is not one of them. */
  const Tracked: set<Severity> := {Leve, Moderado, Severo}

  /** `{'Leve': 0, 'Moderado': 0, 'Severo': 0}` */
  const ZeroCounts: map<Severity, nat> := map[Leve := 0, Moderado := 0, Severo := 0]

  /** The two accumulators of the loop: `severity_count` and `damage_types`. */
  datatype Tally = Tally(severityCount: map<Severity, nat>, damageTypes: seq<string>)

  /** One iteration of the loop over the records. */
  function Step(t: Tally, d: DamageRecord): Tally {
    Tally(
      if d.severity in t.severityCount
      then t.severityCount[d.severity := t.severityCount[d.severity] + 1]
      else t.severityCount,
      if d.display in t.damageTypes then t.damageTypes else t.damageTypes + [d.display])
  }

  /** The loop itself, visiting the records front to back. */
  function Fold(t: Tally, records: seq<DamageRecord>): Tally
    decreases |records|
  {
    if |records| == 0 then t else Fold(Step(t, records[0]), records[1..])
  }

  /** How many records carry severity `s`. */
  function Count(records: seq<DamageRecord>, s: Severity): nat
    decreases |records|
  {
    if |records| == 0 then 0
    else (if records[0].severity == s then 1 else 0) + Count(records[1..], s)
  }

  predicate HasSeverity(records: seq<DamageRecord>, s: Severity) {
    exists i :: 0 <= i < |records| && records[i].severity == s
  }

  /** The display names of the records, as a set. */
  function DisplayNames(records: seq<DamageRecord>): set<string> {
    set i | 0 <= i < |records| :: records[i].display
  }

  /** The priority rule: any `Severo` gives Alta, else any `Moderado` gives Média. */
  function UrgencyOf(severityCount: map<Severity, nat>): (r: Urgency)
    requires Severo in severityCount && Moderado in severityCount
    ensures r == Alta <==> severityCount[Severo] > 0
    ensures r == Media <==> severityCount[Severo] == 0 && severityCount[Moderado] > 0
    ensures r == Baixa <==> severityCount[Severo] == 0 && severityCount[Moderado] == 0
  {
    if severityCount[Severo] > 0 then Alta
    else if severityCount[Moderado] > 0 then Media
    else Baixa
  }

  /** The `damage_analysis` object of the response. */
  datatype DamageAnalysis = DamageAnalysis(
    totalDamages: nat,
    severityCount: map<Severity, nat>,
    damageTypes: seq<string>,
    repairUrgency: Urgency)

  /** The `damage_analysis` object as the response carries it: tiers and urgency written as
      their Portuguese names. */
  datatype AnalysisJson = AnalysisJson(
    totalDamages: nat,
    severityCount: map<string, nat>,
    damageTypes: seq<string>,
    repairUrgency: string)

  /** Renders a summary; the rendering loses nothing, since every tier and urgency reads back
      from its name. */
  function Render(a: DamageAnalysis): (r: AnalysisJson)
    requires a.severityCount.Keys == Tracked
    ensures r.severityCount.Keys == {"Leve", "Moderado", "Severo"}
    ensures forall s :: s in Tracked ==>
      ParseSeverity(SeverityName(s)) == Some(s) && r.severityCount[SeverityName(s)] == a.severityCount[s]
    ensures ParseUrgency(r.repairUrgency) == Some(a.repairUrgency)
    ensures r.totalDamages == a.totalDamages && r.damageTypes == a.damageTypes
  {
    AnalysisJson(
      a.totalDamages,
      map[SeverityName(Leve) := a.severityCount[Leve],
          SeverityName(Moderado) := a.severityCount[Moderado],
          SeverityName(Severo) := a.severityCount[Severo]],
      a.damageTypes,
      UrgencyName(a.repairUrgency))
  }

  lemma {:induction false} FoldCounts(t: Tally, records: seq<DamageRecord>)
    ensures Fold(t, records).severityCount.Keys == t.severityCount.Keys
    ensures forall s :: s in t.severityCount ==>
      Fold(t, records).severityCount[s] == t.severityCount[s] + Count(records, s)
    decreases |records|
  {
    if |records| > 0 {
      FoldCounts(Step(t, records[0]), records[1..]);
    }
  }

  lemma {:induction false} FoldTypes(t: Tally, records: seq<DamageRecord>)
    requires Distinct(t.damageTypes)
    ensures Distinct(Fold(t, records).damageTypes)
    ensures Elements(Fold(t, records).damageTypes) == Elements(t.damageTypes) + DisplayNames(records)
    decreases |records|
  {
    if |records| > 0 {
      var t' := Step(t, records[0]);
      assert Elements(t'.damageTypes) == Elements(t.damageTypes) + {records[0].display};
      FoldTypes(t', records[1..]);
      assert DisplayNames(records) == {records[0].display} + DisplayNames(records[1..]) by {
        forall x ensures x in DisplayNames(records) <==> x in {records[0].display} + DisplayNames(records[1..]) {
          if x in DisplayNames(records) {
            var i :| 0 <= i < |records| && records[i].display == x;
            if i > 0 {
              assert records[1..][i - 1].display == x;
            }
          }
          if x in DisplayNames(records[1..]) {
            var i :| 0 <= i < |records[1..]| && records[1..][i].display == x;
            assert records[i + 1].display == x;
          }
        }
      }
    } else {
      assert DisplayNames(records) == {};
    }
  }

  /** Every record is counted under exactly one of the four tiers. */
  lemma {:induction false} CountsPartition(records: seq<DamageRecord>)
    ensures Count(records, Leve) + Count(records, Moderado) + Count(records, Severo)
            + Count(records, Indefinido) == |records|
    decreases |records|
  {
    if |records| > 0 {
      CountsPartition(records[1..]);
    }
  }

  lemma {:induction false} CountPositive(records: seq<DamageRecord>, s: Severity)
    ensures Count(records, s) > 0 <==> HasSeverity(records, s)
    decreases |records|
  {
    if |records| > 0 {
      CountPositive(records[1..], s);
      if HasSeverity(records[1..], s) {
        var i :| 0 <= i < |records[1..]| && records[1..][i].severity == s;
        assert records[i + 1].severity == s;
      }
      if HasSeverity(records, s) && records[0].severity != s {
        var i :| 0 <= i < |records| && records[i].severity == s;
        assert records[1..][i - 1].severity == s;
      }
    }
  }

  /** The aggregation of main.py:249-264 and the `damage_analysis` object of main.py:284-289. */
  function Summarize(records: seq<DamageRecord>): (r: DamageAnalysis)
    ensures r.totalDamages == |records|
    ensures r.severityCount.Keys == Tracked
    ensures forall s :: s in Tracked ==> r.severityCount[s] == Count(records, s)
    ensures r.severityCount[Leve] + r.severityCount[Moderado] + r.severityCount[Severo]
            == r.totalDamages - Count(records, Indefinido)
    ensures StrictlySorted(r.damageTypes)
    ensures Elements(r.damageTypes) == DisplayNames(records)
    ensures r.repairUrgency == Alta <==> HasSeverity(records, Severo)
    ensures r.repairUrgency == Media <==>
      !HasSeverity(records, Severo) && HasSeverity(records, Moderado)
    ensures r.repairUrgency == Baixa <==>
      !HasSeverity(records, Severo) && !HasSeverity(records, Moderado)
  {
    var t := Fold(Tally(ZeroCounts, []), records);
    FoldCounts(Tally(ZeroCounts, []), records);
    FoldTypes(Tally(ZeroCounts, []), records);
    CountsPartition(records);
    CountPositive(records, Severo);
    CountPositive(records, Moderado);
    SortDistinct(t.damageTypes);
    DamageAnalysis(|records|, t.severityCount, Sort(t.damageTypes), UrgencyOf(t.severityCount))
  }

  /** `damage_types` is the one strictly sorted list of the records' display names. */
  lemma DamageTypesCanonical(records: seq<DamageRecord>, names: seq<string>)
    requires StrictlySorted(names)
    requires Elements(names) == DisplayNames(records)
    ensures Summarize(records).damageTypes == names
  {
    StrictlySortedUnique(Summarize(records).damageTypes, names);
  }

  /** More records never lower the urgency. */
  lemma UrgencyMonotone(a: seq<DamageRecord>, b: seq<DamageRecord>)
    ensures Rank(Summarize(a).repairUrgency) <= Rank(Summarize(a + b).repairUrgency)
  {
    forall s | HasSeverity(a, s) ensures HasSeverity(a + b, s) {
      var i :| 0 <= i < |a| && a[i].severity == s;
      assert (a + b)[i].severity == s;
    }
  }
}

=== FILE: decimal.dfy ===
/** Decimal rendering of integers as Python's `str(n)` and `f"{n:03d}"` produce it,
    together with a parser used to state that the rendering loses nothing. */
module Decimal {
  import opened Wrappers

  predicate IsDigit(c: char) { '0' <= c <= '9' }

  predicate AllDigits(s: string) {
    forall i :: 0 <= i < |s| ==> IsDigit(s[i])
  }

  function DigitChar(d: nat): (c: char)
    requires d < 10
    ensures IsDigit(c)
  {
    ('0' as int + d) as char
  }

  function DigitValue(c: char): (d: nat)
    requires IsDigit(c)
    ensures d < 10 && DigitChar(d) == c
  {
    c as int - '0' as int
  }

  /** `str(n)` for a non-negative integer: at least one digit, no leading zero. */
  function NatToString(n: nat): (r: string)
    ensures |r| > 0 && AllDigits(r)
    ensures r[0] == '0' ==> n == 0 && r == "0"
    decreases n
  {
    if n < 10 then [DigitChar(n)] else NatToString(n / 10) + [DigitChar(n % 10)]
  }

  /** The value of a run of digits; leading zeros are allowed. */
  function DigitsValue(s: string): nat
    requires AllDigits(s)
    decreases |s|
  {
    if |s| == 0 then 0 else DigitsValue(s[..|s| - 1]) * 10 + DigitValue(s[|s| - 1])
  }

  /** Reads a non-empty run of decimal digits. */
  function ParseNat(s: string): Option<nat> {
    if |s| > 0 && AllDigits(s) then Some(DigitsValue(s)) else None
  }

  /** Reads what `IntToString` writes: an optional minus sign and a run of digits. */
  function ParseInt(s: string): Option<int> {
    if |s| > 0 && s[0] == '-' then
      match ParseNat(s[1..])
      case Some(n) => Some(-(n as int))
      case None => None
    else
      match ParseNat(s)
      case Some(n) => Some(n as int)
      case None => None
  }

  /** `str(i)` for any integer. */
  function IntToString(i: int): string {
    if i < 0 then "-" + NatToString(-i) else NatToString(i)
  }

  /** `format(n, "0<width>d")` for a non-negative integer: left-padded with zeros to `width`
      characters, never truncated. */
  function ZeroPad(n: nat, width: nat): (r: string)
    ensures AllDigits(r)
    ensures |r| == if |NatToString(n)| >= width then |NatToString(n)| else width
    ensures r[|r| - |NatToString(n)|..] == NatToString(n)
    ensures forall i :: 0 <= i < |r| - |NatToString(n)| ==> r[i] == '0'
  {
    var s := NatToString(n);
    if |s| >= width then s else seq(width - |s|, _ => '0') + s
  }

  lemma {:induction false} NatToStringRoundTrip(n: nat)
    ensures DigitsValue(NatToString(n)) == n
    decreases n
  {
    if n >= 10 {
      var s := NatToString(n);
      NatToStringRoundTrip(n / 10);
      assert s[..|s| - 1] == NatToString(n / 10);
    }
  }

  /** Zeros in front of a run of digits do not change its value. */
  lemma {:induction false} LeadingZerosIgnored(z: string, s: string)
    requires forall i :: 0 <= i < |z| ==> z[i] == '0'
    requires AllDigits(s)
    ensures AllDigits(z + s)
    ensures DigitsValue(z + s) == DigitsValue(s)
    decreases |s|
  {
    var zs := z + s;
    assert AllDigits(zs) by {
      forall i | 0 <= i < |zs| ensures IsDigit(zs[i]) {
        if i < |z| { assert zs[i] == z[i]; } else { assert zs[i] == s[i - |z|]; }
      }
    }
    if |s| == 0 {
      LeadingZerosValue(z);
      assert zs == z;
    } else {
      LeadingZerosIgnored(z, s[..|s| - 1]);
      assert zs[..|zs| - 1] == z + s[..|s| - 1];
      assert zs[|zs| - 1] == s[|s| - 1];
    }
  }

  lemma {:induction false} LeadingZerosValue(z: string)
    requires forall i :: 0 <= i < |z| ==> z[i] == '0'
    ensures AllDigits(z)
    ensures DigitsValue(z) == 0
    decreases |z|
  {
    if |z| > 0 {
      LeadingZerosValue(z[..|z| - 1]);
    }
  }

  /** Zero padding is read back as the padded number. */
  lemma ZeroPadRoundTrip(n: nat, width: nat)
    ensures ParseNat(ZeroPad(n, width)) == Some(n)
  {
    var s := NatToString(n);
    NatToStringRoundTrip(n);
    if |s| < width {
      var z := seq(width - |s|, _ => '0');
      LeadingZerosIgnored(z, s);
    }
  }

  /** `str` of an integer is read back as that integer, so distinct integers render
      differently. */
  lemma IntToStringRoundTrip(i: int)
    ensures ParseInt(IntToString(i)) == Some(i)
  {
    var n: nat := if i < 0 then -i else i;
    NatToStringRoundTrip(n);
    var s := IntToString(i);
    if i < 0 {
      assert s[1..] == NatToString(n);
    } else {
      assert s[0] != '-';
    }
  }

  /** Numbers below 1000 have at most three digits, so padding them to width 3 gives exactly
      three characters. */
  lemma {:induction false} ThreeDigitsAtMost(n: nat)
    requires n < 1000
    ensures |NatToString(n)| <= 3
  {
    if n >= 10 {
      var m := n / 10;
      if m >= 10 {
        assert |NatToString(m / 10)| == 1;
      }
    }
  }
}

=== FILE: detect_endpoint.dfy ===
/** `process_image` and the `POST /detect` handler `detect_damage` (main.py:116-143,
    209-301) as a function of the server state, the request and the outcomes of the
    collaborators the model cannot see (network, model file loader, image decoder, detector,
    JPEG/base64 encoder, clock). */
module DetectEndpoint {
  import opened Wrappers
  import opened Faults
  import opened Text
  import opened Classifier
  import opened DamageSummary
  import opened Vehicle
  import opened ModelLoader

  newtype byte = x: int | 0 <= x < 256

  const ImagePrefix: string := "image/"
  const NotAnImage: string := "Arquivo deve ser uma imagem"
  const NoContentType: string := "'NoneType' object has no attribute 'startswith'"
  const ProcessPrefix: string := "Erro ao processar imagem: "
  const DataUriPrefix: string := "data:image/jpeg;base64,"
  const Inspector: string := "Sistema IA YOLO API"
  const ApiVersion: string := "2.0.0"
  const ModelDescription: string := "YOLOv8 (car_damage_best.pt)"

  /** An uploaded file part; its `content_type` is `None` when the part has no Content-Type
      header. */
  datatype Upload = Upload(contentType: Option<string>, filename: string, contents: seq<byte>)

  datatype DetectRequest = DetectRequest(
    file: Upload,
    includeAnnotatedImage: bool,
    vehiclePlate: Option<string>,
    vehicleModel: Option<string>,
    vehicleYear: Option<int>,
    vehicleColor: Option<string>)

  /** The process-wide state: the global `model`, the model file on disk and the number of
      network downloads performed so far. */
  datatype Server<M> = Server(model: Option<M>, disk: Artifact, downloads: nat)

  /** What the detector returns for one image: the boxes, already read into detections in
      the detector's order, and the annotated image from `results[0].plot()`. */
  datatype Inference<Img> = Inference(detections: seq<Detection>, annotated: Img)

  /** The collaborators of one request. */
  datatype Environment<!M, !Img> = Environment(
    network: FetchOutcome,
    openModel: Artifact -> Result<M, string>,
    decodeImage: seq<byte> -> Result<Img, string>,
    runModel: (M, Img) -> Result<Inference<Img>, string>,
    encodeJpegBase64: Img -> Result<string, string>,
    timestamp: string)

  datatype InspectionInfo = InspectionInfo(
    timestamp: string,
    inspector: string,
    version: string,
    modelDescription: string,
    originalFilename: string)

  /** The JSON body of a successful response. */
  datatype InspectionReport = InspectionReport(
    info: InspectionInfo,
    vehicle: VehicleInfo,
    analysis: DamageAnalysis,
    damages: seq<DamageRecord>,
    annotatedImage: Option<string>)

  datatype Outcome<M> = Outcome(server: Server<M>, response: Result<InspectionReport, Fault>)

  /** `process_image(image)`: load the model if needed, then run the detector. */
  function ProcessImage<M, Img>(server: Server<M>, env: Environment<M, Img>, image: Img)
    : (r: (Server<M>, Result<Inference<Img>, Fault>))
    ensures server.model.Some? ==> r.0 == server
    ensures r.0.downloads == server.downloads + if server.model.None? && server.disk == Absent then 1 else 0
    ensures r.1.Success? ==>
      r.0.model.Some? && env.runModel(r.0.model.value, image) == Success(r.1.value)
    ensures r.1.Failure? ==> Status(r.1.error) == 500
    ensures var load := LoadModel(server.model, server.disk, env.network, env.openModel);
      r.1.Success? <==> load.result.Success? && env.runModel(load.result.value, image).Success?
    ensures var load := LoadModel(server.model, server.disk, env.network, env.openModel);
      r.0.model == load.slot && r.0.disk == load.disk
  {
    var load := LoadModel(server.model, server.disk, env.network, env.openModel);
    var server' := Server(load.slot, load.disk, server.downloads + if load.fetched then 1 else 0);
    match load.result
    case Failure(e) => (server', Failure(Wrap(500, ProcessPrefix, e)))
    case Success(m) =>
      match env.runModel(m, image)
      case Success(inference) => (server', Success(inference))
      case Failure(e) => (server', Failure(Wrap(500, ProcessPrefix, Raised(e))))
  }

  /** `image_to_base64(image)`: fails when saving the JPEG fails. */
  function ImageToBase64<M, Img>(env: Environment<M, Img>, image: Img): (r: Result<string, string>)
    ensures r.Success? <==> env.encodeJpegBase64(image).Success?
    ensures r.Success? ==>
      (StartsWith(r.value, DataUriPrefix)
       && r.value[|DataUriPrefix|..] == env.encodeJpegBase64(image).value)
  {
    match env.encodeJpegBase64(image)
    case Success(payload) =>
      assert (DataUriPrefix + payload)[..|DataUriPrefix|] == DataUriPrefix;
      assert (DataUriPrefix + payload)[|DataUriPrefix|..] == payload;
      Success(DataUriPrefix + payload)
    case Failure(e) => Failure(e)
  }

  /** `detect_damage(...)`: the `POST /detect` handler. */
  function DetectDamage<M, Img>(server: Server<M>, env: Environment<M, Img>, request: DetectRequest)
    : (r: Outcome<M>)
    ensures request.file.contentType.None? ==>
      r.server == server && r.response.Failure? && Status(r.response.error) == 500
    ensures request.file.contentType.Some? && !StartsWith(request.file.contentType.value, ImagePrefix) ==>
      r == Outcome(server, Failure(HttpException(400, Message(NotAnImage))))
    ensures request.file.contentType.Some? && StartsWith(request.file.contentType.value, ImagePrefix)
            && r.response.Failure? ==>
      Status(r.response.error) == 500
    ensures env.decodeImage(request.file.contents).Failure? ==> r.server == server
    ensures request.file.contentType.Some? && StartsWith(request.file.contentType.value, ImagePrefix)
            && env.decodeImage(request.file.contents).Success? ==>
      r.server == ProcessImage(server, env, env.decodeImage(request.file.contents).value).0
    ensures r.response.Success? <==>
      && request.file.contentType.Some?
      && StartsWith(request.file.contentType.value, ImagePrefix)
      && env.decodeImage(request.file.contents).Success?
      && var processed := ProcessImage(server, env, env.decodeImage(request.file.contents).value).1;
         && processed.Success?
         && (request.includeAnnotatedImage ==> ImageToBase64(env, processed.value.annotated).Success?)
    ensures server.model.Some? ==> r.server == server
    ensures r.server.downloads <= server.downloads + 1
    ensures r.server.downloads > server.downloads ==> server.model.None? && server.disk == Absent
    ensures r.response.Success? ==>
      && r.server.model.Some?
      && env.decodeImage(request.file.contents).Success?
      && env.runModel(r.server.model.value, env.decodeImage(request.file.contents).value).Success?
      && var inference := env.runModel(r.server.model.value, env.decodeImage(request.file.contents).value).value;
         var report := r.response.value;
         && report.damages == CreateDamageAnalysis(inference.detections)
         && report.analysis == Summarize(report.damages)
         && report.vehicle == MakeVehicleInfo(request.vehiclePlate, request.vehicleModel,
                                              request.vehicleYear, request.vehicleColor)
         && report.info == InspectionInfo(env.timestamp, Inspector, ApiVersion, ModelDescription,
                                          request.file.filename)
         && (!request.includeAnnotatedImage ==> report.annotatedImage.None?)
         && (request.includeAnnotatedImage ==>
               ImageToBase64(env, inference.annotated).Success?
               && report.annotatedImage == Some(ImageToBase64(env, inference.annotated).value))
  {
    match request.file.contentType
    case None => Outcome(server, Failure(Raised(NoContentType)))
    case Some(contentType) =>
      if !StartsWith(contentType, ImagePrefix) then
        Outcome(server, Failure(HttpException(400, Message(NotAnImage))))
      else
        match env.decodeImage(request.file.contents)
        case Failure(e) => Outcome(server, Failure(Wrap(500, ProcessPrefix, Raised(e))))
        case Success(image) =>
          var (server', processed) := ProcessImage(server, env, image);
          match processed
          case Failure(e) => Outcome(server', Failure(Wrap(500, ProcessPrefix, e)))
          case Success(inference) =>
            var damages := CreateDamageAnalysis(inference.detections);
            var report := InspectionReport(
              InspectionInfo(env.timestamp, Inspector, ApiVersion, ModelDescription, request.file.filename),
              MakeVehicleInfo(request.vehiclePlate, request.vehicleModel, request.vehicleYear,
                              request.vehicleColor),
              Summarize(damages),
              damages,
              None);
            if !request.includeAnnotatedImage then Outcome(server', Success(report))
            else
              match ImageToBase64(env, inference.annotated)
              case Success(uri) => Outcome(server', Success(report.(annotatedImage := Some(uri))))
              case Failure(e) => Outcome(server', Failure(Wrap(500, ProcessPrefix, Raised(e))))
  }

  /** `startup_event()`: `load_model()` at process start, with no handler around it, so a
      failed load aborts startup and no server exists to take requests. */
  function Startup<M>(disk: Artifact, network: FetchOutcome, open: Artifact -> Result<M, string>)
    : (r: Option<Server<M>>)
    ensures r.Some? <==> LoadModel(None, disk, network, open).result.Success?
    ensures r.Some? ==> r.value.model.Some? && r.value.disk != Absent
    ensures r.Some? ==> r.value.downloads == if disk == Absent then 1 else 0
  {
    var load := LoadModel(None, disk, network, open);
    if load.result.Success? then Some(Server(load.slot, load.disk, if load.fetched then 1 else 0))
    else None
  }

  /** The server state after serving a sequence of requests, each with its collaborators. */
  function Serve<M, Img>(server: Server<M>, steps: seq<(Environment<M, Img>, DetectRequest)>): Server<M>
    decreases |steps|
  {
    if |steps| == 0 then server
    else Serve(DetectDamage(server, steps[0].0, steps[0].1).server, steps[1..])
  }

  /** Once the model is loaded it is never replaced or reloaded, and no further download
      happens, whatever requests follow. */
  lemma {:induction false} LoadedModelIsKept<M, Img>(server: Server<M>,
                                                   steps: seq<(Environment<M, Img>, DetectRequest)>)
    requires server.model.Some?
    ensures Serve(server, steps) == server
    decreases |steps|
  {
    if |steps| > 0 {
      LoadedModelIsKept(DetectDamage(server, steps[0].0, steps[0].1).server, steps[1..]);
    }
  }

  /** Once a file is on disk, no request downloads again. */
  lemma {:induction false} NoDownloadOnceOnDisk<M, Img>(server: Server<M>,
                                                      steps: seq<(Environment<M, Img>, DetectRequest)>)
    requires server.disk != Absent
    ensures Serve(server, steps).downloads == server.downloads
    ensures Serve(server, steps).disk != Absent
    decreases |steps|
  {
    if |steps| > 0 {
      var next := DetectDamage(server, steps[0].0, steps[0].1).server;
      assert next.downloads == server.downloads && next.disk != Absent;
      NoDownloadOnceOnDisk(next, steps[1..]);
    }
  }

  /** A request whose `load_model` succeeds leaves the model set, whatever happens after it
      (detector, encoding), so the next request does not load again. */
  lemma SuccessfulLoadIsKept<M, Img>(server: Server<M>, env: Environment<M, Img>, request: DetectRequest)
    requires request.file.contentType.Some? && StartsWith(request.file.contentType.value, ImagePrefix)
    requires env.decodeImage(request.file.contents).Success?
    requires LoadModel(server.model, server.disk, env.network, env.openModel).result.Success?
    ensures DetectDamage(server, env, request).server.model.Some?
    ensures DetectDamage(server, env, request).server.model
            == LoadModel(server.model, server.disk, env.network, env.openModel).slot
  {
    var image := env.decodeImage(request.file.contents).value;
    assert DetectDamage(server, env, request).server == ProcessImage(server, env, image).0;
  }

  /** A server that started has its model, so no request it serves ever loads or downloads
      again: the per-request load in `process_image` never does any work. */
  lemma {:induction false} StartedServerNeverReloads<M, Img>(disk: Artifact, network: FetchOutcome,
                                         open: Artifact -> Result<M, string>,
                                         steps: seq<(Environment<M, Img>, DetectRequest)>)
    requires Startup(disk, network, open).Some?
    ensures Serve(Startup(disk, network, open).value, steps) == Startup(disk, network, open).value
  {
    LoadedModelIsKept(Startup(disk, network, open).value, steps);
  }
}

=== FILE: faults.dfy ===
/** Exceptions as data. A collaborator's exception is `Raised`; `HTTPException(status, detail)`
    is `HttpException`, and a detail of the form `f"<prefix>{e}"` keeps the wrapped exception
    `e` as its cause. */
module Faults {

  datatype Fault =
    | Raised(message: string)
    | HttpException(status: nat, detail: Detail)

  datatype Detail =
    | Message(text: string)
    | Prefixed(prefix: string, cause: Fault)

  /** `raise HTTPException(status_code=status, detail=f"{prefix}{cause}")` */
  function Wrap(status: nat, prefix: string, cause: Fault): (f: Fault)
    ensures Status(f) == status
    ensures RootCause(f) == RootCause(cause)
  {
    HttpException(status, Prefixed(prefix, cause))
  }

  /** The status code the client sees; an exception that is not an `HTTPException` becomes 500. */
  function Status(f: Fault): nat {
    match f
    case Raised(_) => 500
    case HttpException(status, _) => status
  }

  /** The innermost exception of a chain of wrapped exceptions. */
  function RootCause(f: Fault): Fault {
    match f
    case Raised(_) => f
    case HttpException(_, Message(_)) => f
    case HttpException(_, Prefixed(_, cause)) => RootCause(cause)
  }
}

=== FILE: model_loader.dfy ===
/** `download_model` and `load_model` (main.py:68-114): the model file is fetched only when
    it is not on disk, and the process-wide model is loaded only while it is `None`. */
module ModelLoader {
  import opened Wrappers
  import opened Faults

  const ModelPath: string := "car_damage_best.pt"
  const DownloadPrefix: string := "Erro ao baixar o modelo: "
  const LoadPrefix: string := "Erro ao carregar o modelo: "

  /** What `os.path.exists(model_path)` can observe. The file is created by `open(..., 'wb')`
      before the first chunk arrives, so a download that fails while streaming leaves a
      `Partial` file behind. */
  datatype Artifact = Absent | Partial | Complete

  /** What the remote fetch does when it is attempted. */
  datatype FetchOutcome =
    | Fetched
    | FailsBeforeWrite(reason: string)
    | FailsWhileWriting(reason: string)

  datatype Download = Download(disk: Artifact, fetched: bool, result: Result<string, Fault>)

  /** `download_model()` */
  function DownloadModel(disk: Artifact, network: FetchOutcome): (r: Download)
    ensures disk != Absent ==> r == Download(disk, false, Success(ModelPath))
    ensures r.fetched <==> disk == Absent
    ensures r.result.Success? <==> disk != Absent || network.Fetched?
    ensures r.result.Success? ==> r.result.value == ModelPath && r.disk != Absent
    ensures r.result.Failure? ==> Status(r.result.error) == 500
    ensures r.disk == Complete <==> disk == Complete || (disk == Absent && network.Fetched?)
    ensures disk == Absent && network.FailsBeforeWrite? ==> r.disk == Absent
    ensures disk == Absent && network.FailsWhileWriting? ==> r.disk == Partial
  {
    if disk != Absent then Download(disk, false, Success(ModelPath))
    else
      match network
      case Fetched => Download(Complete, true, Success(ModelPath))
      case FailsBeforeWrite(e) => Download(Absent, true, Failure(Wrap(500, DownloadPrefix, Raised(e))))
      case FailsWhileWriting(e) => Download(Partial, true, Failure(Wrap(500, DownloadPrefix, Raised(e))))
  }

  /** The effect of one `load_model()` call: the new value of the global `model`, the file on
      disk, whether the network was used, which file `YOLO(model_path)` was given (if it was
      called) and the returned model or raised exception. */
  datatype Load<M> = Load(
    slot: Option<M>,
    disk: Artifact,
    fetched: bool,
    loadedFrom: Option<Artifact>,
    result: Result<M, Fault>)

  /** `load_model()`, with the global `model` as `slot` and `YOLO(model_path)` as `open`. */
  function LoadModel<M>(slot: Option<M>, disk: Artifact, network: FetchOutcome,
                        open: Artifact -> Result<M, string>): (r: Load<M>)
    ensures slot.Some? ==> r == Load(slot, disk, false, None, Success(slot.value))
    ensures r.result.Success? <==> r.slot.Some?
    ensures r.result.Success? ==> r.slot == Some(r.result.value)
    ensures r.result.Failure? ==> Status(r.result.error) == 500
    ensures r.fetched ==> slot.None? && disk == Absent
    ensures r.loadedFrom.Some? ==> slot.None? && r.loadedFrom.value != Absent && r.loadedFrom.value == r.disk
    ensures slot.None? && r.slot.Some? ==> r.loadedFrom.Some? && open(r.loadedFrom.value) == Success(r.slot.value)
    ensures slot.None? ==>
      r.disk == DownloadModel(disk, network).disk && r.fetched == DownloadModel(disk, network).fetched
  {
    if slot.Some? then Load(slot, disk, false, None, Success(slot.value))
    else
      var d := DownloadModel(disk, network);
      match d.result
      case Failure(e) => Load(None, d.disk, d.fetched, None, Failure(Wrap(500, LoadPrefix, e)))
      case Success(path) =>
        match open(d.disk)
        case Success(m) => Load(Some(m), d.disk, d.fetched, Some(d.disk), Success(m))
        case Failure(e) => Load(None, d.disk, d.fetched, Some(d.disk), Failure(Wrap(500, LoadPrefix, Raised(e))))
  }

  /** Once a download has written anything, later calls never fetch again: a second call
      after a successful one performs no network request. */
  lemma DownloadAtMostOnce(disk: Artifact, first: FetchOutcome, second: FetchOutcome)
    requires !first.FailsBeforeWrite?
    ensures !DownloadModel(DownloadModel(disk, first).disk, second).fetched
  {
  }

  /** A download that fails while streaming leaves a partial file, and the next `load_model`
      hands that file to the model loader instead of fetching it again. */
  lemma PartialDownloadIsReused<M>(network: FetchOutcome, open: Artifact -> Result<M, string>)
    requires network.FailsWhileWriting?
    ensures DownloadModel(Absent, network).disk == Partial
    ensures DownloadModel(Absent, network).result.Failure?
    ensures !LoadModel(None, Partial, network, open).fetched
    ensures LoadModel(None, Partial, network, open).loadedFrom == Some(Partial)
  {
  }

  /** The failure of a load keeps the underlying exception as its cause. */
  lemma LoadFailureKeepsCause<M>(disk: Artifact, network: FetchOutcome,
                                 open: Artifact -> Result<M, string>)
    requires LoadModel(None, disk, network, open).result.Failure?
    ensures var cause := RootCause(LoadModel(None, disk, network, open).result.error);
      (disk == Absent && !network.Fetched? && cause == Raised(network.reason))
      || (exists e :: open(DownloadModel(disk, network).disk) == Failure(e) && cause == Raised(e))
  {
  }
}

=== FILE: scenarios.dfy ===
/** Two worked inspections: no detections at all, and two scratches with a flat tyre. */
module Scenarios {
  import opened DamageConfig
  import opened Classifier
  import opened DamageSummary
  import opened StringOrder
  import Decimal

  /** An image with nothing detected yields an empty, zero-filled, low-urgency summary. */
  lemma EmptyInspection()
    ensures CreateDamageAnalysis([]) == []
    ensures Summarize([]) == DamageAnalysis(0, ZeroCounts, [], Baixa)
  {
    var r := Summarize([]);
    assert r.severityCount == ZeroCounts;
    assert |r.damageTypes| == 0 by {
      if |r.damageTypes| > 0 {
        ElementAt(r.damageTypes, 0);
      }
    }
  }

  lemma FirstIds()
    ensures DamageId(0) == "DMG_001" && DamageId(1) == "DMG_002" && DamageId(2) == "DMG_003"
  {
    assert Decimal.NatToString(1) == "1" && Decimal.NatToString(2) == "2" && Decimal.NatToString(3) == "3";
    assert Decimal.ZeroPad(1, 3) == "001";
    assert Decimal.ZeroPad(2, 3) == "002";
    assert Decimal.ZeroPad(3, 3) == "003";
  }

  lemma Scratch(i: nat, d: Detection)
    requires d.className == "scratch"
    ensures Classify(i, d).severity == Leve && Classify(i, d).display == "Risco"
  {
    assert SeverityMap["scratch"] == Leve;
    assert ClassNames["scratch"] == "Risco";
  }

  lemma FlatTire(i: nat, d: Detection)
    requires d.className == "flat_tire"
    ensures Classify(i, d).severity == Severo && Classify(i, d).display == "Pneu Vazio"
  {
    assert SeverityMap["flat_tire"] == Severo;
    assert ClassNames["flat_tire"] == "Pneu Vazio";
  }

  /** `scratch`, `flat_tire`, `scratch` in that order. */
  lemma ScratchFlatTireScratch(c1: real, c2: real, c3: real, b1: BBox, b2: BBox, b3: BBox)
    ensures var records := CreateDamageAnalysis([Detection("scratch", c1, b1),
                                                  Detection("flat_tire", c2, b2),
                                                  Detection("scratch", c3, b3)]);
      && |records| == 3
      && records[0].damageId == "DMG_001"
      && records[1].damageId == "DMG_002"
      && records[2].damageId == "DMG_003"
      && Summarize(records) == DamageAnalysis(3, map[Leve := 2, Moderado := 0, Severo := 1],
                                              ["Pneu Vazio", "Risco"], Alta)
  {
    var detections := [Detection("scratch", c1, b1), Detection("flat_tire", c2, b2),
                       Detection("scratch", c3, b3)];
    var records := CreateDamageAnalysis(detections);
    FirstIds();
    Scratch(0, detections[0]);
    FlatTire(1, detections[1]);
    Scratch(2, detections[2]);
    CountsOfThree(records);
    TypesOfThree(records);
  }

  lemma TypesOfThree(records: seq<DamageRecord>)
    requires |records| == 3
    requires records[0].display == "Risco" && records[1].display == "Pneu Vazio"
    requires records[2].display == "Risco"
    ensures Summarize(records).damageTypes == ["Pneu Vazio", "Risco"]
  {
    var names := ["Pneu Vazio", "Risco"];
    assert Below(names[0], names[1]);
    assert DisplayNames(records) == {"Risco", "Pneu Vazio"} by {
      assert records[0].display in DisplayNames(records);
      assert records[1].display in DisplayNames(records);
    }
    assert Elements(names) == {"Risco", "Pneu Vazio"} by {
      assert names[0] in names && names[1] in names;
    }
    DamageTypesCanonical(records, names);
  }

  lemma CountsOfThree(records: seq<DamageRecord>)
    requires |records| == 3
    requires records[0].severity == Leve && records[1].severity == Severo && records[2].severity == Leve
    ensures Summarize(records).severityCount == map[Leve := 2, Moderado := 0, Severo := 1]
  {
    var r1 := records[1..];
    var r2 := r1[1..];
    assert r1[0] == records[1] && r2[0] == records[2] && r2[1..] == [];
    assert Count(r2, Leve) == 1 && Count(r2, Moderado) == 0 && Count(r2, Severo) == 0;
    assert Count(records, Leve) == 2 && Count(records, Moderado) == 0 && Count(records, Severo) == 1;
    var c := Summarize(records).severityCount;
    assert c.Keys == {Leve, Moderado, Severo};
  }
}

=== FILE: string_order.dfy ===
/** Python's ordering of `str` values (lexicographic by code point) and the `sorted`
    built-in over a list of strings. */
module StringOrder {

  /** `a < b` on Python strings. */
  predicate Below(a: string, b: string)
    decreases |a|
  {
    if |a| == 0 then |b| > 0
    else |b| > 0 && (a[0] < b[0] || (a[0] == b[0] && Below(a[1..], b[1..])))
  }

  /** `a <= b` on Python strings. */
  predicate AtMost(a: string, b: string) {
    a == b || Below(a, b)
  }

  lemma {:induction false} BelowIrreflexive(a: string)
    ensures !Below(a, a)
    decreases |a|
  {
    if |a| > 0 {
      BelowIrreflexive(a[1..]);
    }
  }

  lemma {:induction false} BelowTransitive(a: string, b: string, c: string)
    requires Below(a, b) && Below(b, c)
    ensures Below(a, c)
    decreases |a|
  {
    if |a| > 0 && a[0] == b[0] && b[0] == c[0] {
      BelowTransitive(a[1..], b[1..], c[1..]);
    }
  }

  lemma {:induction false} BelowConnected(a: string, b: string)
    requires a != b
    ensures Below(a, b) || Below(b, a)
    decreases |a|
  {
    if |a| > 0 && |b| > 0 && a[0] == b[0] {
      assert a == [a[0]] + a[1..] && b == [b[0]] + b[1..];
      BelowConnected(a[1..], b[1..]);
    }
  }

  lemma BelowAsymmetric(a: string, b: string)
    requires Below(a, b)
    ensures !Below(b, a)
  {
    if Below(b, a) {
      BelowTransitive(a, b, a);
      BelowIrreflexive(a);
    }
  }

  predicate Sorted(s: seq<string>) {
    forall i, j :: 0 <= i < j < |s| ==> AtMost(s[i], s[j])
  }

  predicate StrictlySorted(s: seq<string>) {
    forall i, j :: 0 <= i < j < |s| ==> Below(s[i], s[j])
  }

  predicate Distinct(s: seq<string>) {
    forall i, j :: 0 <= i < j < |s| ==> s[i] != s[j]
  }

  function Elements(s: seq<string>): set<string> {
    set x | x in s
  }

  lemma ElementAt(s: seq<string>, k: int)
    requires 0 <= k < |s|
    ensures s[k] in Elements(s)
  {
  }

  /** Inserts `x` into a sorted list before the first element not below it. */
  function Insert(x: string, s: seq<string>): (r: seq<string>)
    requires Sorted(s)
    ensures Sorted(r)
    ensures multiset(r) == multiset(s) + multiset{x}
    decreases |s|
  {
    if |s| == 0 then [x]
    else if Below(s[0], x) then
      var rest := Insert(x, s[1..]);
      assert s == [s[0]] + s[1..];
      assert forall k :: 0 <= k < |rest| ==> AtMost(s[0], rest[k]) by {
        forall k | 0 <= k < |rest| ensures AtMost(s[0], rest[k]) {
          assert rest[k] in multiset(rest);
          if rest[k] != x {
            assert rest[k] in multiset(s[1..]);
            var m :| 0 <= m < |s[1..]| && s[1..][m] == rest[k];
            assert s[m + 1] == rest[k];
          }
        }
      }
      [s[0]] + rest
    else
      assert forall k :: 0 <= k < |s| ==> AtMost(x, s[k]) by {
        forall k | 0 <= k < |s| ensures AtMost(x, s[k]) {
          if x != s[0] {
            BelowConnected(x, s[0]);
          }
          if k > 0 && s[0] != s[k] {
            BelowTransitiveAtMost(x, s[0], s[k]);
          }
        }
      }
      [x] + s
  }

  lemma BelowTransitiveAtMost(a: string, b: string, c: string)
    requires AtMost(a, b) && AtMost(b, c)
    ensures AtMost(a, c)
  {
    if a != b && b != c {
      BelowTransitive(a, b, c);
    }
  }

  /** `sorted(s)`: an insertion sort returning a sorted permutation of `s`. */
  function Sort(s: seq<string>): (r: seq<string>)
    ensures Sorted(r)
    ensures multiset(r) == multiset(s)
    decreases |s|
  {
    if |s| == 0 then []
    else
      assert s == [s[0]] + s[1..];
      Insert(s[0], Sort(s[1..]))
  }

  /** A permutation keeps distinctness, and a sorted list without repeats is strictly sorted. */
  lemma SortDistinct(s: seq<string>)
    requires Distinct(s)
    ensures StrictlySorted(Sort(s))
    ensures Elements(Sort(s)) == Elements(s)
  {
    var r := Sort(s);
    forall x ensures x in r <==> x in s {
      assert x in r <==> x in multiset(r);
      assert x in s <==> x in multiset(s);
    }
    forall i, j | 0 <= i < j < |r| ensures Below(r[i], r[j]) {
      if r[i] == r[j] {
        RepeatCountsTwice(r, i, j);
        DistinctOccursOnce(s, r[i]);
      }
    }
  }

  lemma RepeatCountsTwice(r: seq<string>, i: nat, j: nat)
    requires i < j < |r| && r[i] == r[j]
    ensures multiset(r)[r[i]] >= 2
  {
    var x := r[i];
    assert r == r[..j] + r[j..];
    assert x in r[..j];
    assert r[j..][0] == x;
    assert x in multiset(r[..j]) && x in multiset(r[j..]);
  }

  lemma {:induction false} DistinctOccursOnce(s: seq<string>, x: string)
    requires Distinct(s)
    ensures multiset(s)[x] <= 1
    decreases |s|
  {
    if |s| > 0 {
      assert s == [s[0]] + s[1..];
      DistinctOccursOnce(s[1..], x);
      if x == s[0] {
        assert x !in s[1..];
        assert multiset(s[1..])[x] == 0;
      }
    }
  }

  /** A set has exactly one strictly sorted enumeration. */
  lemma {:induction false} StrictlySortedUnique(a: seq<string>, b: seq<string>)
    requires StrictlySorted(a) && StrictlySorted(b)
    requires Elements(a) == Elements(b)
    ensures a == b
    decreases |a|
  {
    if |a| > 0 {
      assert a[0] in Elements(b);
      assert |b| > 0;
      assert b[0] in Elements(a);
      if a[0] != b[0] {
        var i :| 0 <= i < |b| && b[i] == a[0];
        var j :| 0 <= j < |a| && a[j] == b[0];
        assert Below(b[0], a[0]) by { assert i > 0; }
        assert Below(a[0], b[0]) by { assert j > 0; }
        BelowAsymmetric(a[0], b[0]);
      }
      forall x ensures x in a[1..] <==> x in b[1..] {
        if x in a[1..] {
          var i :| 1 <= i < |a| && a[i] == x;
          assert Below(a[0], x);
          BelowIrreflexive(x);
          assert x in Elements(b);
          var j :| 0 <= j < |b| && b[j] == x;
          assert j != 0;
          assert b[1..][j - 1] == x;
        }
        if x in b[1..] {
          var j :| 1 <= j < |b| && b[j] == x;
          assert Below(b[0], x);
          BelowIrreflexive(x);
          assert x in Elements(a);
          var i :| 0 <= i < |a| && a[i] == x;
          assert i != 0;
          assert a[1..][i - 1] == x;
        }
      }
      StrictlySortedUnique(a[1..], b[1..]);
      assert a == [a[0]] + a[1..] && b == [b[0]] + b[1..];
    } else if |b| > 0 {
      ElementAt(b, 0);
    }
  }
}

=== FILE: text.dfy ===
/** The string operations the report pipeline borrows from Python's `str`:
    `startswith`, `replace` of one character and `title`. Case mapping is ASCII only. */
module Text {

  predicate IsUpper(c: char) { 'A' <= c <= 'Z' }

  predicate IsLower(c: char) { 'a' <= c <= 'z' }

  /** A character Python calls "cased" (restricted to ASCII letters). */
  predicate IsCased(c: char) { IsUpper(c) || IsLower(c) }

  function ToUpper(c: char): char {
    if IsLower(c) then (c as int - 32) as char else c
  }

  function ToLower(c: char): char {
    if IsUpper(c) then (c as int + 32) as char else c
  }

  /** `s.startswith(prefix)` */
  predicate StartsWith(s: string, prefix: string) {
    |prefix| <= |s| && s[..|prefix|] == prefix
  }

  /** `startswith` holds exactly when the string is the prefix followed by something. */
  lemma StartsWithMeansPrefix(s: string, prefix: string)
    ensures StartsWith(s, prefix) <==> exists rest :: s == prefix + rest
  {
    if StartsWith(s, prefix) {
      assert s == prefix + s[|prefix|..];
    }
  }

  /** `s.replace(old, new)` for single characters. */
  function ReplaceChar(s: string, from: char, to: char): (r: string)
    ensures |r| == |s|
    ensures forall i :: 0 <= i < |s| ==> r[i] == (if s[i] == from then to else s[i])
  {
    seq(|s|, i requires 0 <= i < |s| => if s[i] == from then to else s[i])
  }

  /** `s.title()`: a scan that upper-cases a character when the previous one was not
      cased and lower-cases it otherwise; `afterCased` says whether the character before
      `s` was cased. */
  function TitleFrom(s: string, afterCased: bool): (r: string)
    decreases |s|
  {
    if |s| == 0 then []
    else [if afterCased then ToLower(s[0]) else ToUpper(s[0])] + TitleFrom(s[1..], IsCased(s[0]))
  }

  function Title(s: string): string {
    TitleFrom(s, false)
  }

  /** Reference definition of a title-cased string: the character at `i` begins a word
      exactly when it is first or follows an uncased character. */
  ghost predicate TitleCasedOf(s: string, r: string) {
    && |r| == |s|
    && forall i :: 0 <= i < |s| ==>
         r[i] == (if i > 0 && IsCased(s[i - 1]) then ToLower(s[i]) else ToUpper(s[i]))
  }

  lemma {:induction false} TitleFromPointwise(s: string, afterCased: bool)
    ensures |TitleFrom(s, afterCased)| == |s|
    ensures forall i :: 0 < i < |s| ==>
      TitleFrom(s, afterCased)[i] == (if IsCased(s[i - 1]) then ToLower(s[i]) else ToUpper(s[i]))
    ensures |s| > 0 ==>
      TitleFrom(s, afterCased)[0] == (if afterCased then ToLower(s[0]) else ToUpper(s[0]))
    decreases |s|
  {
    if |s| > 0 {
      var t := TitleFrom(s[1..], IsCased(s[0]));
      TitleFromPointwise(s[1..], IsCased(s[0]));
      assert TitleFrom(s, afterCased) == [if afterCased then ToLower(s[0]) else ToUpper(s[0])] + t;
      forall i | 0 < i < |s|
        ensures TitleFrom(s, afterCased)[i] == (if IsCased(s[i - 1]) then ToLower(s[i]) else ToUpper(s[i]))
      {
        assert TitleFrom(s, afterCased)[i] == t[i - 1];
        if i > 1 {
          assert s[1..][i - 2] == s[i - 1];
        }
      }
    }
  }

  /** `Title` agrees with the word-boundary reference definition. */
  lemma TitleMeetsReference(s: string)
    ensures TitleCasedOf(s, Title(s))
  {
    TitleFromPointwise(s, false);
  }

  lemma CaseMappingKeepsCased(c: char)
    ensures IsCased(ToUpper(c)) <==> IsCased(c)
    ensures IsCased(ToLower(c)) <==> IsCased(c)
    ensures ToUpper(ToLower(c)) == ToUpper(c) && ToLower(ToUpper(c)) == ToLower(c)
    ensures ToUpper(ToUpper(c)) == ToUpper(c) && ToLower(ToLower(c)) == ToLower(c)
  {
  }

  /** Title-casing an already title-cased string changes nothing. */
  lemma TitleIdempotent(s: string)
    ensures Title(Title(s)) == Title(s)
  {
    var t := Title(s);
    TitleMeetsReference(s);
    TitleMeetsReference(t);
    forall i | 0 <= i < |s|
      ensures Title(t)[i] == t[i]
    {
      CaseMappingKeepsCased(s[i]);
      if i > 0 {
        CaseMappingKeepsCased(s[i - 1]);
        var j := i - 1;
        assert t[j] == (if j > 0 && IsCased(s[j - 1]) then ToLower(s[j]) else ToUpper(s[j]));
        assert IsCased(t[j]) == IsCased(s[j]);
      }
    }
  }
}

=== FILE: vehicle.dfy ===
/** The `vehicle_info` object of the response (main.py:267-272): each optional form field,
    or the sentinel when Python finds it falsy. */
module Vehicle {
  import opened Wrappers
  import Decimal

  const NotInformed: string := "Não informado"

  datatype VehicleInfo = VehicleInfo(plate: string, model: string, year: string, color: string)

  /** `value or "Não informado"` for an optional string: `None` and `""` are falsy. */
  function TextOrNotInformed(value: Option<string>): (r: string)
    ensures r != ""
    ensures r == NotInformed <==> value.None? || value.value in {"", NotInformed}
    ensures value.Some? && value.value != "" ==> r == value.value
    ensures value.None? || value.value == "" ==> r == NotInformed
  {
    if value.Some? && value.value != "" then value.value else NotInformed
  }

  /** `str(year) if year else "Não informado"`: `None` and `0` are falsy, any other year,
      negative ones included, is rendered by `str`. */
  function YearOrNotInformed(year: Option<int>): (r: string)
    ensures r == NotInformed <==> year.None? || year.value == 0
    ensures Decimal.ParseInt(r) == if year.Some? && year.value != 0 then year else None
  {
    if year.Some? && year.value != 0 then
      Decimal.IntToStringRoundTrip(year.value);
      assert Decimal.IntToString(year.value) != NotInformed by {
        assert NotInformed[0] == 'N';
        assert !Decimal.IsDigit(NotInformed[0]);
      }
      Decimal.IntToString(year.value)
    else
      assert !Decimal.IsDigit(NotInformed[0]);
      NotInformed
  }

  function MakeVehicleInfo(plate: Option<string>, model: Option<string>, year: Option<int>,
                           color: Option<string>): (r: VehicleInfo)
    ensures r.plate == TextOrNotInformed(plate)
    ensures r.model == TextOrNotInformed(model)
    ensures r.year == YearOrNotInformed(year)
    ensures r.color == TextOrNotInformed(color)
  {
    VehicleInfo(TextOrNotInformed(plate), TextOrNotInformed(model), YearOrNotInformed(year),
                TextOrNotInformed(color))
  }
}

=== FILE: wrappers.dfy ===
/** Option and Result, used for Python's `None` and for raised exceptions. */
module Wrappers {

  datatype Option<+T> = None | Some(value: T)

  datatype Result<+R, +E> = Success(value: R) | Failure(error: E)
}
